=== FILE: README.md ===
# Matter garland: on/off controller and routing table

This project models the core of a Matter-over-Thread firmware that switches a decorative garland
through a MOSFET on GPIO 18. The modelled core has three parts.

- **The garland controller** (`Garland`, `garland.dfy`). It holds one boolean state, Off when
  constructed, and implements the hooks of the On/Off cluster (section 1.5 of the Matter
  Application Cluster Specification): `on_off`, `set_on_off`, `start_up_on_off`,
  `set_start_up_on_off` and `handle_off_with_effect`. The model is an immutable record: the
  state, plus the sequence of `(pin, level)` writes issued to the GPIO driver. Each hook is a
  pure function. The driver's return code is a parameter of every hook that writes a level.
  `Apply` runs one hook call. `Run` runs a sequence of calls one after another, since no two
  calls interleave on the state.
- **The node declaration** (`NodeDecl`, `node.dfy`). Endpoint 1 is an On/Off Light. It exposes
  the Descriptor cluster (section 9.5 of the Matter Core Specification) and the garland's On/Off
  cluster. The On/Off cluster is built from the full cluster by three narrowing steps: revision 6,
  the required attributes plus `OnOff`, and the commands Off, On and Toggle.
- **The handler chain** (`Router`, `router.dfy`). Starting from `EmptyHandler`, the firmware
  chains an (endpoint, cluster) matcher for the On/Off handler and one for the Descriptor handler.
  `Route` resolves a pair to a handler, or to the empty handler. `Dispatch` and `Serve` apply
  requests to the controller through that routing.

Identifiers live in `MatterIds` (`matter_ids.dfy`) and the `Option` type in `Wrappers`
(`wrappers.dfy`). The cluster, attribute, command and device-type numbers are the ones the Matter
specifications assign. They are named in the source, but their values are defined by the
library.

The statements are of three kinds:

- **Reference definitions.** `Commanded` gives the state last commanded, `Emitted` the level
  writes a call sequence causes, and `ReplyTo` and `ExpectedReply` each call's reply. None of them mentions the
  controller. The `Run*` lemmas connect the controller to them.
- **An invariant.** `InSync` holds when the last level requested of the GPIO driver shows the state.
- **Routing facts.** The routing table agrees with what the node declares.

Two consequences of the code are worth stating:

- `start_up_on_off` always returns non-null `Off` (src/main.rs:99-101), and
  `set_start_up_on_off` stores nothing and returns `Ok` (src/main.rs:103-105). So a write/read
  round-trip of the StartUpOnOff attribute holds only for `Off` (`Garland.StartUpRoundTrip`).
- The garland's cluster declares only the Off, On and Toggle commands and, of the cluster's own
  attributes, only `OnOff` (src/main.rs:77-82). A request for any element the cluster does not
  declare is answered as unsupported. So no request can reach the startup hooks or
  `handle_off_with_effect` (`Router.AcceptedCalls`, `Router.OnlyOnOffCallsReachController`).
  Those hooks are still modelled.

## Model

| member | source | states |
|---|---|---|
| Garland.New | src/main.rs:66-71 | A new controller is Off and has written no level, so the written level and the state agree. |
| Garland.OnOff | src/main.rs:84-86 | `on_off` reports the stored state. While the controller is in sync, it matches the level last requested of the GPIO driver (1 for On), or Off before any write. It changes nothing (`Garland.ReadsChangeNothing`). After `set_on_off(on)` it reports `on` (`Garland.ReadAfterSet`). |
| Garland.StartUpOnOff | src/main.rs:99-101 | `start_up_on_off` is never null and always reports `Off`, whatever the state and whatever was written before (`Garland.RunReplies`). |
| Garland.SetStartUpOnOff | src/main.rs:103-105 | `set_start_up_on_off` always succeeds, whatever value it is given. It changes neither the state nor the trace and stores nothing, so reading back gives `Off` (`Garland.StartUpRoundTrip`). |
| Garland.SetOnOff | src/main.rs:88-97 | After `set_on_off(on)`, the state is `on`. Exactly one write is appended to the trace and nothing earlier changes. It is on pin 18, with level 1 if `on` and 0 otherwise. Afterwards the last level shows the state. |
| Garland.ReadAfterSet | src/main.rs:84-97 | `on_off` after `set_on_off(on)` reports `on`, whatever the driver returned for either call. |
| Garland.SetIgnoresGpioResult | src/main.rs:88-97 | A failed GPIO write commits the same state and trace as a successful one. There is no rollback. |
| Garland.ReadsChangeNothing | src/main.rs:84-105 | `on_off`, `start_up_on_off` and `set_start_up_on_off` change neither the state nor the GPIO trace, and they write no level. |
| Garland.HandleOffWithEffect | src/main.rs:107-109 | Off-with-effect ends Off from any state. It appends exactly one level-0 write on pin 18, and the last level shows the state. |
| Garland.OffWithEffectIgnoresVariant | src/main.rs:107-109 | Every effect variant gives the same result, and that result is `set_on_off(false)`. |
| Garland.StartUpRoundTrip | src/main.rs:99-105 | A startup write always returns `Ok`. Reading back gives the value written exactly when that value is non-null `Off`. |
| Garland.Apply | src/main.rs:84-109 | One hook call appends exactly the level writes its kind causes: one for `set_on_off` or Off-with-effect, none otherwise. Its reply depends only on the state before the call. It never breaks the agreement between the last level written and the state. |
| Garland.RunState | src/main.rs:84-109 | After any sequence of hook calls, the state is the one the last On/Off write or Off-with-effect commanded. If there was none, it is the initial state. |
| Garland.RunWrites | src/main.rs:88-109 | A sequence of hook calls appends exactly one pin-18 write per commanding call, in order, with level 1 for On and 0 for Off. Other calls append nothing. |
| Garland.RunReplies | src/main.rs:84-105 | In any run, each `on_off` reply is the state last commanded before it. Each `start_up_on_off` reply is non-null `Off`, even after earlier startup writes, and each startup write replies `Ok`. |
| Garland.RunIgnoresGpioResults | src/main.rs:88-97 | Two runs of the same hook calls end in the same state and trace and give the same replies, whatever the driver returned. |
| Garland.RunKeepsInSync | src/main.rs:88-109 | Any run keeps the last level written in agreement with the state. |
| NodeDecl.Cluster.WithRevision | src/main.rs:75-76 | Narrowing to a revision sets the revision and keeps the id, attributes and commands. |
| NodeDecl.Cluster.WithAttrs | src/main.rs:77 | Narrowing keeps exactly the selected attributes of the full cluster and changes nothing else. |
| NodeDecl.Cluster.WithCmds | src/main.rs:78-82 | Narrowing keeps exactly the selected commands of the full cluster and changes nothing else. |
| NodeDecl.OnOffClusterDeclaration | src/main.rs:75-82 | The garland's On/Off cluster is revision 6. Of the cluster's own attributes it has only `OnOff`, plus the global attributes. It accepts exactly Off, On and Toggle. |
| NodeDecl.OffWithEffectNotAccepted | src/main.rs:78-82 | Off-with-effect is defined in the full cluster but not accepted by the garland's cluster. |
| NodeDecl.LightEndpointDeclaration | src/main.rs:114-124 | The node has one application endpoint, endpoint 1, of device type On/Off Light. Its clusters are the Descriptor cluster and the garland's On/Off cluster, in that order. No ids repeat. |
| NodeDecl.NodeDeclares | src/main.rs:114-124 | Of its application endpoints, the node declares exactly the pairs (1, Descriptor) and (1, On/Off). |
| Router.HandlerChain.Resolve | src/main.rs:202-213 | A pair reaches the target of the first link whose matcher accepts it. It reaches the empty handler exactly when no matcher accepts it. |
| Router.Route | src/main.rs:202-213 | A request reaches the On/Off cluster handler (`OnOffTarget`) if and only if it is addressed to (1, On/Off). That handler passes it on to the controller only for an element the cluster declares (`Router.Dispatch`). It reaches the Descriptor handler if and only if it is addressed to (1, Descriptor). Every other pair reaches the empty handler. |
| Router.RoutedIffDeclared | src/main.rs:114-124 | A pair reaches a handler exactly when one of the node's application endpoints declares that cluster on that endpoint. |
| Router.AcceptedCalls | src/main.rs:77-82 | The garland's cluster declares the element behind a hook call exactly for the `on_off` read and for the On/Off writes. It does not declare the startup attribute or the Off-with-effect command. |
| Router.Dispatch | src/main.rs:202-213 | A request gets the empty handler's unsupported response exactly when it is not addressed to (1, On/Off) or (1, Descriptor). A request addressed to (1, Descriptor) gets the Descriptor handler's response. A request addressed to (1, On/Off) is answered "unsupported element" exactly when it is for neither an `on_off` read nor an On/Off write. A request that does not reach the controller leaves it unchanged. A request that reaches it runs its hook call. |
| Router.ServeRunsRoutedCalls | src/main.rs:202-213 | Serving any sequence of requests leaves the controller as running only the calls that reach it would. Those are the calls addressed to (1, On/Off) for an element the cluster declares. |
| Router.OnlyOnOffCallsReachController | src/main.rs:202-213 | Whatever the requests, the only hook calls that reach the controller are `on_off` reads and On/Off writes. No request runs the startup hooks or `handle_off_with_effect`. |
| Router.UnaddressedChangesNothing | src/main.rs:202-213 | If no request reaches the controller, the requests change neither the state nor the GPIO trace. |
| Router.ServeState | src/main.rs:202-213 | After serving any requests, the state is the one last commanded by a request that reached the controller. The trace grew by exactly the writes those commands cause. The agreement between level and state is kept. |

## Left out

- Thread creation, `block_on`, and the asynchronous run loop (src/main.rs:126-156, 222-231). This is executor plumbing. `Serve` models the loop's effect as sequential handling of requests.
- Stack initialisation, NVS and key-value persistence, eventfs and BLE memory reduction (src/main.rs:159-178, 217-220). These are foreign services.
- The `gpio_config` and `gpio_set_level` calls (src/main.rs:181-191, 91). A level write is modelled as an appended `(pin, level)` pair, and its return code as a parameter.
- The pin's actual level. The trace records the levels requested of the GPIO driver, including requests the driver reports as failed, so after a failed write the last recorded level is the one requested, not necessarily the one on the pin.
- Logging. The only effect of the driver's return code is the choice of log line, so in the model the return code changes nothing.
- The library's On/Off cluster handler. Its decoding of On, Off, Toggle and attribute writes into hook calls is not part of this model, and neither is its startup handling. Requests are modelled as the hook call they lead to, together with the cluster element that call comes from (`Router.ElementOf`). So Toggle is not given semantics beyond the hooks. The library's check that the element is declared is modelled in `Router.Dispatch`; the library distinguishes unsupported attributes from unsupported commands, and the model merges them into one response.
- The Descriptor handler's responses and the Descriptor cluster's attribute list and revision. These are defined by the library, so the model keeps only the cluster's id and the fact that the handler leaves the controller alone.
- The root endpoint and its clusters (src/main.rs:117). These are defined by the library.
- Data versions (`Dataver::new_rand`, src/main.rs:197, 212). They are random and maintained by the library.
- The revision of the On/Off Light device type. It is defined by the library; the model keeps the device type's code.
- NodeDecl.RequiredOrOnOff: the `required` selector is modelled as "a global attribute". `OnOff` is the cluster's only mandatory attribute and is named explicitly, so the selected set is the same either way.

=== FILE: garland.dfy ===
/** The garland controller: one boolean on/off state and the GPIO pin that drives the
    garland's MOSFET. The controller is an immutable record; every hook of the On/Off
    cluster is a pure function from the record before the call to the record after it.
    The record carries, besides the state, the sequence of level writes issued to the GPIO
    driver, so that the hooks' effect on the hardware can be stated. */
module Garland {

  /** The GPIO pin wired to the MOSFET. */
  const GPIO_NUM: int := 18

  /** `esp_err_t`, the `i32` the GPIO driver returns: 0 on success, an error code otherwise. */
  type EspErr = x: int | -0x8000_0000 <= x < 0x8000_0000

  const ESP_OK: EspErr := 0

  /** One call of the driver's set-level routine. */
  datatype GpioWrite = GpioWrite(pin: int, level: nat)

  /** The pin level that shows state `on`: active high. */
  function LevelFor(on: bool): (level: nat)
    ensures level <= 1
    ensures level == 1 <==> on
  {
    if on then 1 else 0
  }

  /** The controller's state and every level it has written, oldest first. */
  datatype Controller = Controller(on: bool, writes: seq<GpioWrite>)

  /** The On/Off cluster's StartUpOnOff values. */
  datatype StartUpOnOffEnum = Off | On | Toggle

  /** A TLV value that may be null. */
  datatype Nullable<+T> = Null | NonNull(value: T)

  /** The effect an Off-with-effect request asks for. */
  datatype EffectVariant = DelayedOffFastFade | NoFade | DelayedOffSlowFade | DyingLightFadeOff

  /** The result of an attribute write hook; `Err` carries a Matter error code. */
  datatype WriteResult = Ok | Err(code: nat)

  /** The last level written shows the current state; before any write the state is Off. */
  predicate InSync(c: Controller)
  {
    if c.writes == [] then !c.on
    else c.writes[|c.writes| - 1] == GpioWrite(GPIO_NUM, LevelFor(c.on))
  }

  /** A freshly constructed controller. */
  function New(): (c: Controller)
    ensures !OnOff(c)
    ensures c.writes == []
    ensures InSync(c)
  {
    Controller(false, [])
  }

  /** The `on_off` hook: the stored state. While the controller is in sync it is the level
      last requested of the GPIO driver (1 for On), and Off before any write. */
  function OnOff(c: Controller): (on: bool)
    ensures InSync(c) && c.writes != [] ==> (on <==> c.writes[|c.writes| - 1].level == 1)
    ensures InSync(c) && c.writes == [] ==> !on
  {
    c.on
  }

  /** The `set_on_off` hook. The state is committed first; then the level is written,
      and `gpioResult`, the driver's reply, only decides which log line is emitted. */
  function SetOnOff(c: Controller, on: bool, gpioResult: EspErr): (c': Controller)
    ensures OnOff(c') == on
    ensures |c'.writes| == |c.writes| + 1
    ensures c'.writes[..|c.writes|] == c.writes
    ensures c'.writes[|c.writes|].pin == GPIO_NUM
    ensures c'.writes[|c.writes|].level <= 1
    ensures (c'.writes[|c.writes|].level == 1) == on
    ensures InSync(c')
  {
    Controller(on, c.writes + [GpioWrite(GPIO_NUM, LevelFor(on))])
  }

  /** The `start_up_on_off` hook: never null, always `Off`, whatever the controller's state. */
  function StartUpOnOff(c: Controller): (v: Nullable<StartUpOnOffEnum>)
    ensures v.NonNull?
    ensures v.value == Off
  {
    NonNull(Off)
  }

  /** The `set_start_up_on_off` hook: accepts the value and keeps nothing of it. It returns
      no controller because it changes none. */
  function SetStartUpOnOff(c: Controller, value: Nullable<StartUpOnOffEnum>): (r: WriteResult)
    ensures r.Ok?
  {
    Ok
  }

  /** The `handle_off_with_effect` hook: every effect degrades to an immediate off. */
  function HandleOffWithEffect(c: Controller, effect: EffectVariant, gpioResult: EspErr): (c': Controller)
    ensures !OnOff(c')
    ensures c'.writes == c.writes + [GpioWrite(GPIO_NUM, 0)]
    ensures InSync(c')
  {
    SetOnOff(c, false, gpioResult)
  }

  /** A call of one of the hooks, as the On/Off cluster handler issues it. */
  datatype HookCall =
    | ReadOnOff
    | WriteOnOff(on: bool)
    | ReadStartUpOnOff
    | WriteStartUpOnOff(value: Nullable<StartUpOnOffEnum>)
    | OffWithEffect(effect: EffectVariant)

  /** What a hook hands back to its caller. */
  datatype HookReply =
    | OnOffIs(on: bool)
    | Done
    | StartUpIs(startUp: Nullable<StartUpOnOffEnum>)
    | Written(result: WriteResult)

  /** One hook call together with the reply the GPIO driver gives if the call writes a level. */
  datatype Event = Event(call: HookCall, gpioResult: EspErr)

  datatype Step = Step(reply: HookReply, after: Controller)

  /** Runs one hook call. */
  function Apply(c: Controller, e: Event): (s: Step)
    ensures InSync(c) ==> InSync(s.after)
    ensures s.after.writes == c.writes + Drives(e)
    ensures s.reply == ReplyTo(c.on, e.call)
  {
    match e.call
    case ReadOnOff => Step(OnOffIs(OnOff(c)), c)
    case WriteOnOff(on) => Step(Done, SetOnOff(c, on, e.gpioResult))
    case ReadStartUpOnOff => Step(StartUpIs(StartUpOnOff(c)), c)
    case WriteStartUpOnOff(v) => Step(Written(SetStartUpOnOff(c, v)), c)
    case OffWithEffect(effect) => Step(Done, HandleOffWithEffect(c, effect, e.gpioResult))
  }

  /** The controller after a sequence of hook calls, and the reply to each call. */
  datatype Trace = Trace(final: Controller, replies: seq<HookReply>)

  /** Runs hook calls one after another; no two calls interleave. */
  function Run(c: Controller, events: seq<Event>): (t: Trace)
    ensures |t.replies| == |events|
    decreases |events|
  {
    if events == [] then Trace(c, [])
    else
      var prior := Run(c, events[..|events| - 1]);
      var s := Apply(prior.final, events[|events| - 1]);
      Trace(s.after, prior.replies + [s.reply])
  }

  // Reference definitions, written without the controller.

  /** The state the events last command, or `initial` when none commands one. */
  function Commanded(initial: bool, events: seq<Event>): bool
    decreases |events|
  {
    if events == [] then initial
    else
      match events[|events| - 1].call
      case WriteOnOff(on) => on
      case OffWithEffect(_) => false
      case _ => Commanded(initial, events[..|events| - 1])
  }

  /** The level writes one call causes: one for each call that commands a state, none otherwise. */
  function Drives(e: Event): seq<GpioWrite>
  {
    match e.call
    case WriteOnOff(on) => [GpioWrite(GPIO_NUM, LevelFor(on))]
    case OffWithEffect(_) => [GpioWrite(GPIO_NUM, 0)]
    case _ => []
  }

  /** All level writes a sequence of calls causes, in order. */
  function Emitted(events: seq<Event>): seq<GpioWrite>
  {
    if events == [] then [] else Drives(events[0]) + Emitted(events[1..])
  }

  /** The reply a call gets from a controller in state `state`. */
  function ReplyTo(state: bool, call: HookCall): HookReply
  {
    match call
    case ReadOnOff => OnOffIs(state)
    case WriteOnOff(_) => Done
    case ReadStartUpOnOff => StartUpIs(NonNull(Off))
    case WriteStartUpOnOff(_) => Written(Ok)
    case OffWithEffect(_) => Done
  }

  /** The reply the `i`th call gets, given the state before the run. */
  function ExpectedReply(initial: bool, events: seq<Event>, i: nat): HookReply
    requires i < |events|
  {
    ReplyTo(Commanded(initial, events[..i]), events[i].call)
  }

  // Properties of single hook calls.

  /** `on_off` after `set_on_off(on)` reports `on`, whatever either driver reply was. */
  lemma ReadAfterSet(c: Controller, on: bool, gpioResult: EspErr, later: EspErr)
    ensures Apply(SetOnOff(c, on, gpioResult), Event(ReadOnOff, later)).reply == OnOffIs(on)
  {
  }

  /** A failed GPIO write commits the same state and trace as a successful one. */
  lemma SetIgnoresGpioResult(c: Controller, on: bool, gpioResult: EspErr)
    ensures SetOnOff(c, on, gpioResult) == SetOnOff(c, on, ESP_OK)
  {
  }

  /** The reads and the startup write change neither the state nor the GPIO trace. */
  lemma ReadsChangeNothing(c: Controller, e: Event)
    requires e.call.ReadOnOff? || e.call.ReadStartUpOnOff? || e.call.WriteStartUpOnOff?
    ensures Apply(c, e).after == c
    ensures Drives(e) == []
  {
  }

  /** Off-with-effect ends Off from either state, with one level-0 write, and the effect
      variant makes no difference. */
  lemma OffWithEffectIgnoresVariant(c: Controller, effect: EffectVariant, other: EffectVariant, gpioResult: EspErr)
    ensures HandleOffWithEffect(c, effect, gpioResult) == HandleOffWithEffect(c, other, gpioResult)
    ensures HandleOffWithEffect(c, effect, gpioResult) == SetOnOff(c, false, gpioResult)
  {
  }

  /** Writing a startup value and reading it back returns what was written exactly when
      the value written is non-null `Off`; the write always succeeds. */
  lemma StartUpRoundTrip(c: Controller, v: Nullable<StartUpOnOffEnum>, r1: EspErr, r2: EspErr)
    ensures Apply(c, Event(WriteStartUpOnOff(v), r1)).reply == Written(Ok)
    ensures Apply(Apply(c, Event(WriteStartUpOnOff(v), r1)).after, Event(ReadStartUpOnOff, r2)).reply == StartUpIs(v)
            <==> v == NonNull(Off)
  {
  }

  // Properties of runs.

  lemma {:induction false} EmittedAppend(events: seq<Event>, e: Event)
    ensures Emitted(events + [e]) == Emitted(events) + Drives(e)
    decreases |events|
  {
    if events == [] {
      assert [e][1..] == [];
    } else {
      assert (events + [e])[1..] == events[1..] + [e];
      EmittedAppend(events[1..], e);
    }
  }

  /** After any run the state is the one last commanded, or the initial one if none was. */
  lemma {:induction false} RunState(c: Controller, events: seq<Event>)
    ensures Run(c, events).final.on == Commanded(c.on, events)
    decreases |events|
  {
    if events != [] {
      RunState(c, events[..|events| - 1]);
    }
  }

  /** A run appends to the GPIO trace exactly one write per commanding call, on pin 18,
      with level 1 for On and 0 for Off, in call order. */
  lemma {:induction false} RunWrites(c: Controller, events: seq<Event>)
    ensures Run(c, events).final.writes == c.writes + Emitted(events)
    decreases |events|
  {
    if events != [] {
      var prefix := events[..|events| - 1];
      var last := events[|events| - 1];
      RunWrites(c, prefix);
      var prior := Run(c, prefix).final;
      assert Run(c, events).final == Apply(prior, last).after;
      assert events == prefix + [last];
      EmittedAppend(prefix, last);
    }
  }

  /** Every reply of a run: `on_off` reports the state last commanded before it, the
      startup read reports non-null `Off`, the startup write reports `Ok`. */
  lemma {:induction false} RunReplies(c: Controller, events: seq<Event>, i: nat)
    requires i < |events|
    ensures Run(c, events).replies[i] == ExpectedReply(c.on, events, i)
    decreases |events|
  {
    var n := |events| - 1;
    var prefix := events[..n];
    var prior := Run(c, prefix);
    var s := Apply(prior.final, events[n]);
    assert Run(c, events).replies == prior.replies + [s.reply];
    if i < n {
      RunReplies(c, prefix, i);
      assert prefix[..i] == events[..i];
      assert prefix[i] == events[i];
    } else {
      RunState(c, prefix);
      assert events[..i] == prefix;
    }
  }

  /** The driver's replies change nothing in a run: runs of the same calls agree. */
  lemma {:induction false} RunIgnoresGpioResults(c: Controller, events: seq<Event>, others: seq<Event>)
    requires |events| == |others|
    requires forall i :: 0 <= i < |events| ==> events[i].call == others[i].call
    ensures Run(c, events) == Run(c, others)
    decreases |events|
  {
    if events != [] {
      var n := |events| - 1;
      RunIgnoresGpioResults(c, events[..n], others[..n]);
      assert events[n].call == others[n].call;
    }
  }

  /** A run keeps the last level written in agreement with the state. */
  lemma {:induction false} RunKeepsInSync(c: Controller, events: seq<Event>)
    requires InSync(c)
    ensures InSync(Run(c, events).final)
    decreases |events|
  {
    if events != [] {
      RunKeepsInSync(c, events[..|events| - 1]);
    }
  }
}

=== FILE: matter_ids.dfy ===
/** Identifier types of the Matter data model and the identifiers the garland node uses.
    Cluster, attribute and command numbers are the ones the Matter Application Cluster
    Specification (section 1.5, On/Off) and the Matter Core Specification (section 9.5,
    Descriptor; section 7.13, global attributes) assign. */
module MatterIds {

  /** Endpoint ids are `u16` on the wire. */
  type EndpointId = x: int | 0 <= x < 0x1_0000

  /** Cluster, attribute and command ids are `u32`. */
  type ClusterId = x: int | 0 <= x < 0x1_0000_0000
  type AttributeId = x: int | 0 <= x < 0x1_0000_0000
  type CommandId = x: int | 0 <= x < 0x1_0000_0000

  /** The one application endpoint: the garland. */
  const LIGHT_ENDPOINT_ID: EndpointId := 1

  const ON_OFF_CLUSTER_ID: ClusterId := 0x0006
  const DESCRIPTOR_CLUSTER_ID: ClusterId := 0x001D

  /** Device type On/Off Light. */
  const ON_OFF_LIGHT_DEVICE_TYPE: nat := 0x0100

  // Global attributes every cluster carries.
  const ATTR_GENERATED_COMMAND_LIST: AttributeId := 0xFFF8
  const ATTR_ACCEPTED_COMMAND_LIST: AttributeId := 0xFFF9
  const ATTR_ATTRIBUTE_LIST: AttributeId := 0xFFFB
  const ATTR_FEATURE_MAP: AttributeId := 0xFFFC
  const ATTR_CLUSTER_REVISION: AttributeId := 0xFFFD

  // Attributes of the On/Off cluster.
  const ATTR_ON_OFF: AttributeId := 0x0000
  const ATTR_GLOBAL_SCENE_CONTROL: AttributeId := 0x4000
  const ATTR_ON_TIME: AttributeId := 0x4001
  const ATTR_OFF_WAIT_TIME: AttributeId := 0x4002
  const ATTR_START_UP_ON_OFF: AttributeId := 0x4003

  // Commands of the On/Off cluster.
  const CMD_OFF: CommandId := 0x00
  const CMD_ON: CommandId := 0x01
  const CMD_TOGGLE: CommandId := 0x02
  const CMD_OFF_WITH_EFFECT: CommandId := 0x40
  const CMD_ON_WITH_RECALL_GLOBAL_SCENE: CommandId := 0x41
  const CMD_ON_WITH_TIMED_OFF: CommandId := 0x42
}

=== FILE: node.dfy ===
/** The node's declaration: which endpoints it has, which device type each is, and which
    clusters, with which attributes and commands, each exposes. This is reference data,
    built once and never changed. */
module NodeDecl {
  import opened Wrappers
  import opened MatterIds

  /** A cluster's metadata: id, revision, the attributes and the commands it accepts. */
  datatype Cluster = Cluster(id: ClusterId, revision: nat, attributes: set<AttributeId>, commands: set<CommandId>)
  {
    /** The same cluster declared at revision `r`. */
    function WithRevision(r: nat): (c: Cluster)
      ensures c.revision == r
      ensures c.id == id && c.attributes == attributes && c.commands == commands
    {
      this.(revision := r)
    }

    /** The same cluster narrowed to the attributes `keep` selects. */
    function WithAttrs(keep: AttributeId -> bool): (c: Cluster)
      ensures c.attributes <= attributes
      ensures forall a :: a in attributes ==> (a in c.attributes <==> keep(a))
      ensures c.id == id && c.revision == revision && c.commands == commands
    {
      this.(attributes := set a | a in attributes && keep(a))
    }

    /** The same cluster narrowed to the commands `keep` selects. */
    function WithCmds(keep: CommandId -> bool): (c: Cluster)
      ensures c.commands <= commands
      ensures forall k :: k in commands ==> (k in c.commands <==> keep(k))
      ensures c.id == id && c.revision == revision && c.attributes == attributes
    {
      this.(commands := set k | k in commands && keep(k))
    }
  }

  const GLOBAL_ATTRIBUTES: set<AttributeId> :=
    {ATTR_GENERATED_COMMAND_LIST, ATTR_ACCEPTED_COMMAND_LIST, ATTR_ATTRIBUTE_LIST,
     ATTR_FEATURE_MAP, ATTR_CLUSTER_REVISION}

  /** The On/Off cluster with every attribute and command the standard defines. */
  const FULL_ON_OFF_CLUSTER: Cluster :=
    Cluster(
      ON_OFF_CLUSTER_ID,
      6,
      GLOBAL_ATTRIBUTES + {ATTR_ON_OFF, ATTR_GLOBAL_SCENE_CONTROL, ATTR_ON_TIME, ATTR_OFF_WAIT_TIME,
                           ATTR_START_UP_ON_OFF},
      {CMD_OFF, CMD_ON, CMD_TOGGLE, CMD_OFF_WITH_EFFECT, CMD_ON_WITH_RECALL_GLOBAL_SCENE,
       CMD_ON_WITH_TIMED_OFF})

  /** The attribute selector `required; OnOff`: the global attributes and OnOff. */
  predicate RequiredOrOnOff(a: AttributeId)
  {
    a in GLOBAL_ATTRIBUTES || a == ATTR_ON_OFF
  }

  /** The command selector `Off | On | Toggle`. */
  predicate OffOnToggle(k: CommandId)
  {
    k == CMD_OFF || k == CMD_ON || k == CMD_TOGGLE
  }

  /** The garland's On/Off cluster: the full cluster at revision 6, narrowed. */
  const ON_OFF_CLUSTER: Cluster :=
    FULL_ON_OFF_CLUSTER.WithRevision(6).WithAttrs(RequiredOrOnOff).WithCmds(OffOnToggle)

  /** A device type; its revision is defined by the library and not part of this model. */
  datatype DeviceType = DeviceType(code: nat)

  const DEV_TYPE_ON_OFF_LIGHT: DeviceType := DeviceType(ON_OFF_LIGHT_DEVICE_TYPE)

  /** A cluster on an endpoint: either declared by this firmware, or taken whole from the
      library, in which case only its id is modelled. */
  datatype ClusterDecl = Declared(cluster: Cluster) | FromLibrary(libraryId: ClusterId)
  {
    function Id(): ClusterId
    {
      match this
      case Declared(c) => c.id
      case FromLibrary(id) => id
    }
  }

  /** The Descriptor cluster, which lets peers enumerate an endpoint's device types and clusters. */
  const DESCRIPTOR_CLUSTER: ClusterDecl := FromLibrary(DESCRIPTOR_CLUSTER_ID)

  datatype Endpoint = Endpoint(id: EndpointId, deviceTypes: seq<DeviceType>, clusters: seq<ClusterDecl>)
  {
    /** The endpoint's cluster with id `cl`, if it has one. */
    function Find(cl: ClusterId): (r: Option<ClusterDecl>)
      ensures r.None? <==> forall i :: 0 <= i < |clusters| ==> clusters[i].Id() != cl
      ensures r.Some? ==> r.value in clusters && r.value.Id() == cl
      decreases |clusters|
    {
      if clusters == [] then None
      else if clusters[0].Id() == cl then Some(clusters[0])
      else this.(clusters := clusters[1..]).Find(cl)
    }
  }

  /** A node: its application endpoints. The root endpoint is supplied by the library. */
  datatype Node = Node(id: nat, endpoints: seq<Endpoint>)
  {
    /** No two endpoints share an id and no endpoint lists a cluster id twice. */
    predicate WellFormed()
    {
      && (forall i, j :: 0 <= i < j < |endpoints| ==> endpoints[i].id != endpoints[j].id)
      && (forall e :: e in endpoints ==>
            forall i, j :: 0 <= i < j < |e.clusters| ==> e.clusters[i].Id() != e.clusters[j].Id())
    }

    /** Whether some endpoint `ep` of the node exposes cluster `cl`. */
    predicate Declares(ep: EndpointId, cl: ClusterId)
    {
      exists e :: e in endpoints && e.id == ep && e.Find(cl).Some?
    }
  }

  /** The garland: an On/Off Light exposing the Descriptor and On/Off clusters. */
  const LIGHT_ENDPOINT: Endpoint :=
    Endpoint(LIGHT_ENDPOINT_ID, [DEV_TYPE_ON_OFF_LIGHT], [DESCRIPTOR_CLUSTER, Declared(ON_OFF_CLUSTER)])

  const NODE: Node := Node(0, [LIGHT_ENDPOINT])

  /** The On/Off cluster is revision 6, carries the global attributes and, of its own
      attributes, only OnOff, and accepts exactly Off, On and Toggle. */
  lemma OnOffClusterDeclaration()
    ensures ON_OFF_CLUSTER.id == ON_OFF_CLUSTER_ID
    ensures ON_OFF_CLUSTER.revision == 6
    ensures ON_OFF_CLUSTER.attributes == GLOBAL_ATTRIBUTES + {ATTR_ON_OFF}
    ensures ON_OFF_CLUSTER.attributes - GLOBAL_ATTRIBUTES == {ATTR_ON_OFF}
    ensures ON_OFF_CLUSTER.commands == {CMD_OFF, CMD_ON, CMD_TOGGLE}
  {
  }

  /** The declared cluster does not accept Off-with-effect, so no command on it can reach
      the controller's effect hook. */
  lemma OffWithEffectNotAccepted()
    ensures CMD_OFF_WITH_EFFECT !in ON_OFF_CLUSTER.commands
    ensures CMD_OFF_WITH_EFFECT in FULL_ON_OFF_CLUSTER.commands
  {
  }

  /** The node has the one application endpoint 1, an On/Off Light, whose clusters are,
      in order, the Descriptor cluster and the garland's On/Off cluster. */
  lemma LightEndpointDeclaration()
    ensures |NODE.endpoints| == 1 && NODE.endpoints[0] == LIGHT_ENDPOINT
    ensures LIGHT_ENDPOINT.id == LIGHT_ENDPOINT_ID
    ensures LIGHT_ENDPOINT.deviceTypes == [DEV_TYPE_ON_OFF_LIGHT]
    ensures |LIGHT_ENDPOINT.clusters| == 2
    ensures LIGHT_ENDPOINT.clusters[0].Id() == DESCRIPTOR_CLUSTER_ID
    ensures LIGHT_ENDPOINT.clusters[1] == Declared(ON_OFF_CLUSTER)
    ensures NODE.WellFormed()
  {
  }

  /** Of its application endpoints, the node declares exactly the pairs (1, Descriptor) and
      (1, On/Off). */
  lemma NodeDeclares(ep: EndpointId, cl: ClusterId)
    ensures NODE.Declares(ep, cl) <==>
            ep == LIGHT_ENDPOINT_ID && (cl == DESCRIPTOR_CLUSTER_ID || cl == ON_OFF_CLUSTER_ID)
  {
    OnOffClusterDeclaration();
    if ep == LIGHT_ENDPOINT_ID && (cl == DESCRIPTOR_CLUSTER_ID || cl == ON_OFF_CLUSTER_ID) {
      assert LIGHT_ENDPOINT in NODE.endpoints;
      assert LIGHT_ENDPOINT.Find(cl).Some?;
    }
  }
}

=== FILE: router.dfy ===
/** Routing of decoded invocations to cluster handlers. The handlers form a chain built
    from `EmptyHandler` by `chain(matcher, handler)` steps; a request goes to the handler
    of the most recently chained link whose matcher accepts its (endpoint, cluster) pair,
    and to the empty handler, which supports nothing, when no matcher accepts it. */
module Router {
  import opened Wrappers
  import opened MatterIds
  import opened Garland
  import NodeDecl

  /** Accepts a pair when each given id equals the pair's; an absent id accepts any. */
  datatype Matcher = Matcher(endpoint: Option<EndpointId>, cluster: Option<ClusterId>)
  {
    predicate Matches(ep: EndpointId, cl: ClusterId)
    {
      (endpoint.None? || endpoint.value == ep) && (cluster.None? || cluster.value == cl)
    }
  }

  /** The handlers the garland chains: its On/Off cluster handler and the Descriptor handler. */
  datatype Target = OnOffTarget | DescriptorTarget

  datatype Link = Link(matcher: Matcher, target: Target)

  datatype HandlerChain = EmptyHandler | Chained(link: Link, next: HandlerChain)
  {
    /** `chain`: the new link is consulted before the existing ones. */
    function Chain(m: Matcher, t: Target): HandlerChain
    {
      Chained(Link(m, t), this)
    }

    /** The links in the order they are consulted. */
    function Links(): seq<Link>
    {
      match this
      case EmptyHandler => []
      case Chained(l, next) => [l] + next.Links()
    }

    /** The handler a pair reaches: the target of the first link that accepts it, or
        `None` for the empty handler. */
    function Resolve(ep: EndpointId, cl: ClusterId): (r: Option<Target>)
      ensures r.None? <==> forall i :: 0 <= i < |Links()| ==> !Links()[i].matcher.Matches(ep, cl)
      ensures r.Some? ==> exists i :: 0 <= i < |Links()| && Links()[i].target == r.value
                                     && Links()[i].matcher.Matches(ep, cl)
                                     && forall j :: 0 <= j < i ==> !Links()[j].matcher.Matches(ep, cl)
    {
      match this
      case EmptyHandler => None
      case Chained(l, next) =>
        assert Links() == [l] + next.Links();
        if l.matcher.Matches(ep, cl) then
          assert Links()[0].matcher.Matches(ep, cl);
          Some(l.target)
        else
          var r := next.Resolve(ep, cl);
          forall j | 0 < j < |Links()|
            ensures Links()[j] == next.Links()[j - 1]
          {
          }
          if r.Some? then
            var i :| 0 <= i < |next.Links()| && next.Links()[i].target == r.value
                     && next.Links()[i].matcher.Matches(ep, cl)
                     && forall j :: 0 <= j < i ==> !next.Links()[j].matcher.Matches(ep, cl);
            assert Links()[i + 1].matcher.Matches(ep, cl);
            r
          else
            r
    }
  }

  /** The garland's handler chain: On/Off on endpoint 1, then Descriptor on endpoint 1. */
  const HANDLER: HandlerChain :=
    EmptyHandler
      .Chain(Matcher(Some(LIGHT_ENDPOINT_ID), Some(NodeDecl.ON_OFF_CLUSTER.id)), OnOffTarget)
      .Chain(Matcher(Some(LIGHT_ENDPOINT_ID), Some(NodeDecl.DESCRIPTOR_CLUSTER.Id())), DescriptorTarget)

  /** Where a request for (`ep`, `cl`) goes: the On/Off cluster handler (`OnOffTarget`) only
      for (1, On/Off), the Descriptor handler only for (1, Descriptor), the empty handler for
      every other pair. Whether the request then reaches the controller is `ForController`. */
  function Route(ep: EndpointId, cl: ClusterId): (r: Option<Target>)
    ensures r == Some(OnOffTarget) <==> ep == LIGHT_ENDPOINT_ID && cl == ON_OFF_CLUSTER_ID
    ensures r == Some(DescriptorTarget) <==> ep == LIGHT_ENDPOINT_ID && cl == DESCRIPTOR_CLUSTER_ID
    ensures r.None? <==> !(ep == LIGHT_ENDPOINT_ID && (cl == ON_OFF_CLUSTER_ID || cl == DESCRIPTOR_CLUSTER_ID))
  {
    NodeDecl.OnOffClusterDeclaration();
    assert HANDLER.Links() ==
      [Link(Matcher(Some(LIGHT_ENDPOINT_ID), Some(DESCRIPTOR_CLUSTER_ID)), DescriptorTarget),
       Link(Matcher(Some(LIGHT_ENDPOINT_ID), Some(ON_OFF_CLUSTER_ID)), OnOffTarget)];
    HANDLER.Resolve(ep, cl)
  }

  /** A request reaches a handler exactly when the node declares its cluster on its endpoint. */
  lemma RoutedIffDeclared(ep: EndpointId, cl: ClusterId)
    ensures Route(ep, cl).Some? <==> NodeDecl.NODE.Declares(ep, cl)
  {
    NodeDecl.NodeDeclares(ep, cl);
  }

  /** A decoded request: its address, the hook call the On/Off handler would make of it,
      and the GPIO driver's reply should that call write a level. */
  datatype Invocation = Invocation(endpoint: EndpointId, cluster: ClusterId, call: HookCall, gpioResult: EspErr)

  /** An attribute or a command of a cluster. */
  datatype Element = AttributeElement(attribute: AttributeId) | CommandElement(command: CommandId)

  /** The element of the On/Off cluster whose access leads to a hook call. A write of the
      state comes from the Off or On command (Toggle, also accepted, leads to one as well). */
  function ElementOf(call: HookCall): Element
  {
    match call
    case ReadOnOff => AttributeElement(ATTR_ON_OFF)
    case WriteOnOff(on) => CommandElement(if on then CMD_ON else CMD_OFF)
    case ReadStartUpOnOff => AttributeElement(ATTR_START_UP_ON_OFF)
    case WriteStartUpOnOff(_) => AttributeElement(ATTR_START_UP_ON_OFF)
    case OffWithEffect(_) => CommandElement(CMD_OFF_WITH_EFFECT)
  }

  /** Whether `cluster` declares the element a hook call comes from. */
  predicate Accepted(cluster: NodeDecl.Cluster, call: HookCall)
  {
    match ElementOf(call)
    case AttributeElement(a) => a in cluster.attributes
    case CommandElement(k) => k in cluster.commands
  }

  /** The garland's cluster lets through the `on_off` read and the On/Off writes, and
      nothing that leads to the startup hooks or to the Off-with-effect hook. */
  lemma AcceptedCalls(call: HookCall)
    ensures Accepted(NodeDecl.ON_OFF_CLUSTER, call) <==> call.ReadOnOff? || call.WriteOnOff?
  {
    NodeDecl.OnOffClusterDeclaration();
  }

  /** The response of the handler a request reaches. `Unsupported` is the empty handler's;
      `UnsupportedElement` answers an element the addressed cluster does not declare. */
  datatype Response = OnOffResponse(reply: HookReply) | DescriptorResponse | UnsupportedElement | Unsupported

  datatype Served = Served(response: Response, after: Controller)

  /** A request that reaches the controller: addressed to (1, On/Off), for an element the
      cluster declares. */
  predicate ForController(inv: Invocation)
  {
    && inv.endpoint == LIGHT_ENDPOINT_ID
    && inv.cluster == ON_OFF_CLUSTER_ID
    && Accepted(NodeDecl.ON_OFF_CLUSTER, inv.call)
  }

  /** Handles one request against the controller. */
  function Dispatch(c: Controller, inv: Invocation): (s: Served)
    ensures s.response.Unsupported? <==>
            !(inv.endpoint == LIGHT_ENDPOINT_ID && (inv.cluster == ON_OFF_CLUSTER_ID || inv.cluster == DESCRIPTOR_CLUSTER_ID))
    ensures s.response.UnsupportedElement? <==>
            inv.endpoint == LIGHT_ENDPOINT_ID && inv.cluster == ON_OFF_CLUSTER_ID
            && !(inv.call.ReadOnOff? || inv.call.WriteOnOff?)
    ensures inv.endpoint == LIGHT_ENDPOINT_ID && inv.cluster == DESCRIPTOR_CLUSTER_ID ==>
            s.response == DescriptorResponse
    ensures !ForController(inv) ==> s.after == c
    ensures ForController(inv) ==>
            s.response == OnOffResponse(Apply(c, Event(inv.call, inv.gpioResult)).reply)
            && s.after == Apply(c, Event(inv.call, inv.gpioResult)).after
  {
    AcceptedCalls(inv.call);
    match Route(inv.endpoint, inv.cluster)
    case Some(OnOffTarget) =>
      if Accepted(NodeDecl.ON_OFF_CLUSTER, inv.call) then
        var step := Apply(c, Event(inv.call, inv.gpioResult));
        Served(OnOffResponse(step.reply), step.after)
      else
        Served(UnsupportedElement, c)
    case Some(DescriptorTarget) => Served(DescriptorResponse, c)
    case None => Served(Unsupported, c)
  }

  /** The controller after a sequence of requests, and each request's response. */
  datatype Session = Session(final: Controller, responses: seq<Response>)

  function Serve(c: Controller, invs: seq<Invocation>): (s: Session)
    ensures |s.responses| == |invs|
    decreases |invs|
  {
    if invs == [] then Session(c, [])
    else
      var prior := Serve(c, invs[..|invs| - 1]);
      var d := Dispatch(prior.final, invs[|invs| - 1]);
      Session(d.after, prior.responses + [d.response])
  }

  /** The hook calls a sequence of requests makes: those that reach the controller, in order. */
  function ControllerEvents(invs: seq<Invocation>): seq<Event>
    decreases |invs|
  {
    if invs == [] then []
    else
      var last := invs[|invs| - 1];
      ControllerEvents(invs[..|invs| - 1]) + (if ForController(last) then [Event(last.call, last.gpioResult)] else [])
  }

  /** Serving requests leaves the controller as running only the calls that reach it would:
      requests to any other pair, or for an element the cluster does not declare, change no
      state and write no level. */
  lemma {:induction false} ServeRunsRoutedCalls(c: Controller, invs: seq<Invocation>)
    ensures Serve(c, invs).final == Run(c, ControllerEvents(invs)).final
    decreases |invs|
  {
    if invs != [] {
      var prefix := invs[..|invs| - 1];
      var last := invs[|invs| - 1];
      ServeRunsRoutedCalls(c, prefix);
      if ForController(last) {
        var es := ControllerEvents(prefix);
        assert (es + [Event(last.call, last.gpioResult)])[..|es|] == es;
      } else {
        assert ControllerEvents(invs) == ControllerEvents(prefix) + [];
        assert ControllerEvents(prefix) + [] == ControllerEvents(prefix);
      }
    }
  }

  /** Requests none of which reaches the controller leave it untouched. */
  lemma {:induction false} UnaddressedChangesNothing(c: Controller, invs: seq<Invocation>)
    requires forall i :: 0 <= i < |invs| ==> !ForController(invs[i])
    ensures Serve(c, invs).final == c
    decreases |invs|
  {
    if invs != [] {
      var prefix := invs[..|invs| - 1];
      assert forall i :: 0 <= i < |prefix| ==> prefix[i] == invs[i];
      UnaddressedChangesNothing(c, prefix);
      assert !ForController(invs[|invs| - 1]);
    }
  }

  /** After serving any requests the state is the one last commanded by a request that
      reached the controller,
      the GPIO trace grew by exactly the writes those commands cause, and the last level
      written still shows the state. */
  lemma ServeState(c: Controller, invs: seq<Invocation>)
    ensures Serve(c, invs).final.on == Commanded(c.on, ControllerEvents(invs))
    ensures Serve(c, invs).final.writes == c.writes + Emitted(ControllerEvents(invs))
    ensures InSync(c) ==> InSync(Serve(c, invs).final)
  {
    ServeRunsRoutedCalls(c, invs);
    RunState(c, ControllerEvents(invs));
    RunWrites(c, ControllerEvents(invs));
    if InSync(c) {
      RunKeepsInSync(c, ControllerEvents(invs));
    }
  }

  /** Through the handler chain only `on_off` reads and On/Off writes reach the controller:
      no request ever runs the startup hooks or the Off-with-effect hook. */
  lemma {:induction false} OnlyOnOffCallsReachController(invs: seq<Invocation>)
    ensures forall i :: 0 <= i < |ControllerEvents(invs)| ==>
              ControllerEvents(invs)[i].call.ReadOnOff? || ControllerEvents(invs)[i].call.WriteOnOff?
    decreases |invs|
  {
    if invs != [] {
      var prefix := invs[..|invs| - 1];
      var last := invs[|invs| - 1];
      OnlyOnOffCallsReachController(prefix);
      AcceptedCalls(last.call);
    }
  }
}

=== FILE: wrappers.dfy ===
/** The optional value used by the data-model declarations and the handler matchers. */
module Wrappers {

  /** Rust's `Option`: a value that may be absent. */
  datatype Option<+T> = None | Some(value: T)
}
